=== FILE: README.md ===
# Autopsy services health monitor and three small viewer cores, in Dafny

This project models, as pure functions over immutable data, four pieces of the
Autopsy forensic browser:

- **The services health monitor** (`ServicesHealthMonitor`). Modules time
  sections of code and submit the measurements. The monitor keeps one running
  entry per metric name: count, sum, maximum and minimum. A periodic task
  copies and clears that map and writes one `timing_data` row per name: count,
  average, maximum and minimum. The monitor also has an enable/disable state
  machine that clears the map on activation and on deactivation.
  - `TimingStats`: the per-name entry. The average uses Java's truncating
    `long` division.
  - `Aggregator`: the name-to-entry map.
  - `HealthMonitor`: the enabled flag, the map and the write-task flag.
- **The text zoom panel** (`TextZoomPanel`, module `TextZoom`). A step index
  into a table of sixteen zoom factors. It starts at 100%, and every move is
  guarded by a range check and by the presence of a component to resize.
- **The sample content viewer** (`SampleContentViewer`, module
  `ZeroByteCounter`). It counts 0x00 bytes among the bytes read into a
  1024-byte buffer, and tests whether content is at least 1024 bytes long.
- **The top-programs table model** (`TopProgramsModel` in
  `DataSourceSummaryUserActivityPanel`, module `TopPrograms`). A bounds-checked,
  three-column view of a program list.

Each operation is related to an independent definition, an invariant, or a
lemma over sequences of operations. Examples:

- `Summarizes` relates an entry to the exact durations it was built from.
- `DurationsOf` filters a submission log by name.
- `ZeroIndices` is the set of zero positions.
- `Valid` is the zoom-index range invariant.

Collaborators the code calls but that are not modelled become inputs:

- What the lock service and the database do during an activation or a flush:
  `SetupEnv`, `FlushEnv`. A flush's environment also says whether closing the prepared insert statement fails. That failure is caught by the same `catch` as a failing insert (ServicesHealthMonitor.java:324, 339-340).
- Clock reads: a metric's duration, and `clock(i)` for the timestamp of row `i`.
- The HashMap iteration order: an `order` that lists each key exactly once.
- `Content.read`: a `ReadOutcome`.
- The top-programs query and the folder-name shortener: function parameters.

Behaviour of the code that the model keeps as written:

- `setEnabled(true)` sets the enabled flag, and persists it, **before**
  activating (ServicesHealthMonitor.java:204-207). Activation can fail: multi-user
  mode is off, the lock is not granted, or the database setup fails. Then the
  flag stays set, the map is not cleared, and no write task is scheduled
  (107-140). A later `setEnabled(true)` on the same monitor returns at once
  (`FailedActivationIsNotRetried`).
- A flush clears the live map before it takes the lock (279-314). If the lock,
  the connection or an insert fails, the copied metrics are lost.
- Inserts are separate statements, so a failing insert leaves the earlier rows
  written (326-340).
- A lock-release failure is raised from a `finally` block (348-353). It replaces
  any error raised while the lock was held.
- `close` does not clear the enabled flag (365-388).

## Model

| member | source | states |
|---|---|---|
| TimingStats.NewTimingInfo | Core/src/org/sleuthkit/autopsy/healthmonitor/ServicesHealthMonitor.java:661-666 | the entry for a first duration d summarises exactly [d] (count 1, sum = max = min = d) and satisfies the entry invariant |
| TimingStats.AddMetric | Core/src/org/sleuthkit/autopsy/healthmonitor/ServicesHealthMonitor.java:675-690 | merging d raises count by exactly 1 and sum by d; max becomes the larger and min the smaller of the old value and d; the entry invariant is preserved |
| TimingStats.AddMetricConsistent | Core/src/org/sleuthkit/autopsy/healthmonitor/ServicesHealthMonitor.java:675-690 | merging a duration into a consistent entry keeps count*min <= sum <= count*max and min <= max |
| TimingStats.TruncDiv | Core/src/org/sleuthkit/autopsy/healthmonitor/ServicesHealthMonitor.java:696-698 | the quotient is Java's `long` division truncated toward zero, characterised by bounds on q * b for non-negative and negative dividends |
| TimingStats.Average | Core/src/org/sleuthkit/autopsy/healthmonitor/ServicesHealthMonitor.java:696-698 | the average is sum / count truncated toward zero, and lies between min and max for every consistent entry |
| TimingStats.FromDurations | Core/src/org/sleuthkit/autopsy/healthmonitor/ServicesHealthMonitor.java:655-690 | creating an entry from d1 and merging d2..dN gives count N, sum Σdi, and max and min among the di bounding all of them |
| TimingStats.AddMetricExtends | Core/src/org/sleuthkit/autopsy/healthmonitor/ServicesHealthMonitor.java:675-690 | if an entry summarises ds, merging d gives the summary of ds + [d] |
| TimingStats.SummarizesIsConsistent | Core/src/org/sleuthkit/autopsy/healthmonitor/ServicesHealthMonitor.java:655-659 | every summary of real durations satisfies count >= 1, min <= max and count*min <= sum <= count*max |
| TimingStats.AverageWithinBounds | Core/src/org/sleuthkit/autopsy/healthmonitor/ServicesHealthMonitor.java:655-698 | for the summary of d1..dN, min <= every di <= max and min <= average <= max |
| Aggregator.AddTimingMetric | Core/src/org/sleuthkit/autopsy/healthmonitor/ServicesHealthMonitor.java:255-272 | recording a metric merges into the entry for its name when present and inserts a new entry otherwise; the key set gains only that name and every other entry is unchanged |
| Aggregator.RecordSummarizesName | Core/src/org/sleuthkit/autopsy/healthmonitor/ServicesHealthMonitor.java:255-272 | after recording a log, a name has an entry iff some metric of that name was submitted, and the entry summarises exactly that name's durations |
| Aggregator.RecordSummarizes | Core/src/org/sleuthkit/autopsy/healthmonitor/ServicesHealthMonitor.java:255-272 | the same statement for all names at once |
| Aggregator.RecordConsistent | Core/src/org/sleuthkit/autopsy/healthmonitor/ServicesHealthMonitor.java:655-690 | every entry of a recorded map satisfies the entry invariant |
| HealthMonitor.Activate | Core/src/org/sleuthkit/autopsy/healthmonitor/ServicesHealthMonitor.java:103-141 | activation succeeds iff multi-user mode is on and the lock, the database setup and the lock release all succeed; success clears the map and schedules the write task; each failure raises its own error, with a release failure taking precedence over a setup failure |
| HealthMonitor.Deactivate | Core/src/org/sleuthkit/autopsy/healthmonitor/ServicesHealthMonitor.java:150-162 | deactivation empties the map and unschedules the write task, leaving the flag alone |
| HealthMonitor.SetEnabled | Core/src/org/sleuthkit/autopsy/healthmonitor/ServicesHealthMonitor.java:198-213 | no-op when the value is unchanged; otherwise the flag ends equal to the request; enabling succeeds iff activation does, clearing the map; a failed enable raises and leaves map and timer as they were; disabling clears the map and the timer; validity is preserved |
| HealthMonitor.Construct | Core/src/org/sleuthkit/autopsy/healthmonitor/ServicesHealthMonitor.java:68-83 | the constructed monitor starts enabled and activated only when the persisted setting is "true", and otherwise starts disabled with an empty map; a failed activation raises (MultiUserModeDisabled outside multi-user mode) and leaves the flag set, the map empty and no write task |
| HealthMonitor.GetTimingMetric | Core/src/org/sleuthkit/autopsy/healthmonitor/ServicesHealthMonitor.java:225-230 | a metric handle for the given name is returned iff the monitor is enabled, otherwise null |
| HealthMonitor.SubmitTimingMetric | Core/src/org/sleuthkit/autopsy/healthmonitor/ServicesHealthMonitor.java:239-249 | while disabled, or for a null metric, the state is unchanged; while enabled the metric is recorded under its name; no error is raised and validity is preserved |
| HealthMonitor.Rows | Core/src/org/sleuthkit/autopsy/healthmonitor/ServicesHealthMonitor.java:322-337 | the insert batch has one row per listed name, in iteration order, carrying that name's count, average, max and min and the clock reading for that row |
| HealthMonitor.Flush | Core/src/org/sleuthkit/autopsy/healthmonitor/ServicesHealthMonitor.java:279-355 | disabled: state untouched, nothing written; enabled: the live map is empty afterwards and nothing else changes; an empty snapshot writes nothing; a refused lock writes nothing and raises; a failed connection writes nothing; a failing insert k leaves exactly k rows written; otherwise every row of the batch is written; with the lock released, DatabaseFailure is raised iff the connection, an insert or the closing of the insert statement failed (a close failure after every insert leaves all rows written), and a release failure raises LockReleaseFailure; a successful flush writes exactly one row per name of the pre-flush map carrying its statistics; written rows are a prefix of the batch |
| HealthMonitor.WriteTask | Core/src/org/sleuthkit/autopsy/healthmonitor/ServicesHealthMonitor.java:592-605 | the periodic task runs one flush and writes what that flush writes; it never raises and leaves the task scheduled; a disabled monitor is left untouched; validity is preserved |
| HealthMonitor.Close | Core/src/org/sleuthkit/autopsy/healthmonitor/ServicesHealthMonitor.java:365-389 | when enabled: the write task is stopped, the final flush writes exactly what a flush writes (nothing on a refused lock or connection, k rows on a failing insert k, one row per name on success), and the flag stays set; when disabled: nothing happens; no error is raised |
| HealthMonitor.RowsReportSnapshot | Core/src/org/sleuthkit/autopsy/healthmonitor/ServicesHealthMonitor.java:326-337 | the full batch holds exactly one row per name of the snapshot (no missing name, no duplicate) |
| HealthMonitor.DisabledSubmitsIgnored | Core/src/org/sleuthkit/autopsy/healthmonitor/ServicesHealthMonitor.java:225-249 | while disabled, any number of get-then-submit measurements leaves the monitor unchanged |
| HealthMonitor.SubmitAllRecords | Core/src/org/sleuthkit/autopsy/healthmonitor/ServicesHealthMonitor.java:239-272 | while enabled and starting from an empty map, submitted measurements build exactly the recorded map of the log |
| HealthMonitor.FlushCoversSubmittedNames | Core/src/org/sleuthkit/autopsy/healthmonitor/ServicesHealthMonitor.java:286-337 | a successful flush of a recorded map writes a row for a name iff some metric of that name was submitted |
| HealthMonitor.RowSummarizesDurations | Core/src/org/sleuthkit/autopsy/healthmonitor/ServicesHealthMonitor.java:326-337 | a row reporting the recorded entry of its name carries that name's number of durations, a max and min among them that bound all of them, and an average between the two |
| HealthMonitor.FlushRowsSummarizeDurations | Core/src/org/sleuthkit/autopsy/healthmonitor/ServicesHealthMonitor.java:326-337 | each written row's count is the number of durations submitted under its name, its max and min are among them and bound all of them, and its average lies between min and max |
| HealthMonitor.SubmittedThenFlushed | Core/src/org/sleuthkit/autopsy/healthmonitor/ServicesHealthMonitor.java:239-337 | between an activation and a successful flush, every submitted name gets exactly one row counting all its submissions, and the live map is empty afterwards |
| HealthMonitor.ReenableDiscards | Core/src/org/sleuthkit/autopsy/healthmonitor/ServicesHealthMonitor.java:198-213 | disabling then successfully re-enabling discards earlier metrics: the next flush writes nothing |
| HealthMonitor.FailedActivationIsNotRetried | Core/src/org/sleuthkit/autopsy/healthmonitor/ServicesHealthMonitor.java:198-213 | on a constructed monitor, after a failed `setEnabled(true)` the flag is set and no write task was scheduled, and a second `setEnabled(true)` returns at once without activating |
| HealthMonitor.ScanScenario | Core/src/org/sleuthkit/autopsy/healthmonitor/ServicesHealthMonitor.java:326-337 | "scan" metrics of 10, 20 and 30 give the entry (3, 60, 30, 10) and the single row count 3, average 20, max 30, min 10 |
| TextZoom.NewPanel | KeywordSearch/src/org/sleuthkit/autopsy/keywordsearch/TextZoomPanel.java:34-45 | a new panel starts at step 6, whose factor is 1 and whose label is 100% |
| TextZoom.ZoomStep | KeywordSearch/src/org/sleuthkit/autopsy/keywordsearch/TextZoomPanel.java:76-82 | the index becomes n exactly when a component to resize exists and 0 <= n < 16; otherwise nothing changes; the range invariant is preserved |
| TextZoom.ZoomIncrement | KeywordSearch/src/org/sleuthkit/autopsy/keywordsearch/TextZoomPanel.java:88-90 | below the top step the index rises by one, nothing else changes, and the zoom factor strictly increases; at step 15 or without a component nothing changes |
| TextZoom.ZoomDecrement | KeywordSearch/src/org/sleuthkit/autopsy/keywordsearch/TextZoomPanel.java:84-86 | above step 0 the index falls by one, nothing else changes, and the zoom factor strictly decreases; at step 0 or without a component nothing changes |
| TextZoom.ResetSize | KeywordSearch/src/org/sleuthkit/autopsy/keywordsearch/TextZoomPanel.java:72-74 | with a component the index returns to 6 and nothing else changes; without one nothing changes |
| TextZoom.TextSize | KeywordSearch/src/org/sleuthkit/autopsy/keywordsearch/TextZoomPanel.java:79 | the font size sent is Math.round of the step's factor times the default size, which is the default size itself at step 6 |
| TextZoom.StepsStrictlyIncreasing | KeywordSearch/src/org/sleuthkit/autopsy/keywordsearch/TextZoomPanel.java:34-36 | the zoom factor table is strictly increasing |
| TextZoom.TextSizeMonotone | KeywordSearch/src/org/sleuthkit/autopsy/keywordsearch/TextZoomPanel.java:76-82 | a higher step never sends a smaller font size |
| TextZoom.ResetIdempotent | KeywordSearch/src/org/sleuthkit/autopsy/keywordsearch/TextZoomPanel.java:72-74 | resetting twice is the same as resetting once |
| TextZoom.ApplyAllValid | KeywordSearch/src/org/sleuthkit/autopsy/keywordsearch/TextZoomPanel.java:76-90 | no sequence of zoom-in, zoom-out and reset presses takes the index out of [0, 16) |
| TextZoom.WithoutZoomableNothingMoves | KeywordSearch/src/org/sleuthkit/autopsy/keywordsearch/TextZoomPanel.java:76-90 | without a component to resize, no sequence of presses changes the panel |
| TextZoom.WithoutZoomableStaysAtDefault | KeywordSearch/src/org/sleuthkit/autopsy/keywordsearch/TextZoomPanel.java:52-56 | a panel built without a component stays at step 6 whatever is pressed |
| TextZoom.ZoomPercent | KeywordSearch/src/org/sleuthkit/autopsy/keywordsearch/TextZoomPanel.java:92-95 | the percentage shown is the step's factor times 100 rounded half up, between 6 and 1000 |
| TextZoom.PercentLabels | KeywordSearch/src/org/sleuthkit/autopsy/keywordsearch/TextZoomPanel.java:92-95 | the sixteen labels are 6, 13, 25, 38, 50, 75, 100, 150, 200, 250, 300, 400, 500, 600, 800 and 1000 percent |
| TextZoom.PercentStrictlyIncreasing | KeywordSearch/src/org/sleuthkit/autopsy/keywordsearch/TextZoomPanel.java:92-95 | a higher step always shows a larger percentage |
| ZeroByteCounter.CountZeroBytes | Core/src/org/sleuthkit/autopsy/examples/SampleContentViewer.java:108-115 | the count is the number of indices i < len whose byte is 0x00, and lies between 0 and max(len, 0) |
| ZeroByteCounter.SetNode | Core/src/org/sleuthkit/autopsy/examples/SampleContentViewer.java:92-120 | a null node or a node without content blanks the label; a read error is shown; otherwise the label carries the zero count of the bytes read (at most 1024) and the length read |
| ZeroByteCounter.OnlyBytesReadAreExamined | Core/src/org/sleuthkit/autopsy/examples/SampleContentViewer.java:108-115 | buffers that agree on the first len bytes give the same count |
| ZeroByteCounter.IsSupported | Core/src/org/sleuthkit/autopsy/examples/SampleContentViewer.java:154-166 | supported iff the node has content and its size is at least 1024 |
| ZeroByteCounter.IsPreferred | Core/src/org/sleuthkit/autopsy/examples/SampleContentViewer.java:169-172 | the preference is 1 for every node |
| ZeroByteCounter.ResetComponent | Core/src/org/sleuthkit/autopsy/examples/SampleContentViewer.java:149-151 | resetting blanks the label |
| TopPrograms.NewModel | Core/src/org/sleuthkit/autopsy/casemodule/datasourcesummary/DataSourceSummaryUserActivityPanel.java:124-136 | a null list gives row count 0; otherwise the model holds the list and the row count is its size |
| TopPrograms.GetRowCount | Core/src/org/sleuthkit/autopsy/casemodule/datasourcesummary/DataSourceSummaryUserActivityPanel.java:133-136 | one row per program result held by the model |
| TopPrograms.GetColumnCount | Core/src/org/sleuthkit/autopsy/casemodule/datasourcesummary/DataSourceSummaryUserActivityPanel.java:116-141 | there are always exactly three columns, one per header |
| TopPrograms.GetColumnName | Core/src/org/sleuthkit/autopsy/casemodule/datasourcesummary/DataSourceSummaryUserActivityPanel.java:116-131 | a name is returned iff 0 <= column < 3, and it is that column's header |
| TopPrograms.GetValueAt | Core/src/org/sleuthkit/autopsy/casemodule/datasourcesummary/DataSourceSummaryUserActivityPanel.java:144-156 | a cell is non-null iff the row and the column are in range; column 0 is the program name, 1 its shortened folder, 2 its run count |
| TopPrograms.SetDataSource | Core/src/org/sleuthkit/autopsy/casemodule/datasourcesummary/DataSourceSummaryUserActivityPanel.java:76-112 | no data source or no open case gives an empty table; otherwise the table shows the query's top-10 result, empty if the query returns null |
| TopPrograms.ColumnNamesMatchCells | Core/src/org/sleuthkit/autopsy/casemodule/datasourcesummary/DataSourceSummaryUserActivityPanel.java:129-156 | in an existing row, a column has a header iff it has a cell |
| TopPrograms.TableShowsResults | Core/src/org/sleuthkit/autopsy/casemodule/datasourcesummary/DataSourceSummaryUserActivityPanel.java:144-156 | every result's name and run count can be read back from columns 0 and 2 of its row |

## Left out

- Database plumbing is not modelled. This covers `databaseExists`, `createDatabase`, `deleteDatabase`, `initializeDatabaseSchema`, `setupConnectionPool`, `connect`, `shutdownConnections` and the SQL text. Their outcome is an input: `SetupEnv.setupSucceeds`, and the `connects` and `failingInsert` fields of `FlushEnv`.
- The coordination-service locks (`getExclusiveDbLock`, `getSharedDbLock`, `release`) are a foreign service. Whether the lock is granted and released is an input.
- Threads, `synchronized` blocks, the atomic flag and its check-then-act window are not modelled. Everything is sequential.
- The scheduled executor (`startTimer`, `stopTimer`) is a single "write task scheduled" flag. Its one-minute interval is not modelled.
- The process-wide singleton (`getInstance`, `startUp`) is not modelled. The monitor state is passed explicitly, and `Construct` models the private constructor.
- The retry after a failed construction is not modelled. When the constructor's activation fails (ServicesHealthMonitor.java:76-79), `getInstance` throws and keeps no instance, while the enabled flag stays set. Every later `getInstance()` from `submitTimingMetric` or `close` then re-runs the constructor and retries activation. `setEnabled(true)` returns at once because the flag is already set. `setEnabled(false)` saves "false" before calling `getInstance()`, so it builds a fresh, disabled monitor. So a submit after a failed start-up either drops the metric (the retry fails) or starts a fresh map with a running timer (the retry succeeds). The model treats the monitor as constructed: a failed start-up leaves `Monitor(true, map[], false)`, and a later submit records into that map.
- `TimingMetric` is not part of this model, and it reads the clock. A duration is an integer supplied at submission.
- Java `long` overflow of the sum or the count is not modelled. Values are unbounded integers.
- `ModuleSettings` persistence and logging are not modelled. The debug output (`System.out`, `printCurrentState`, `print`) and the debug helper `clearCurrentState` are left out too.
- The Swing widgets of TextZoomPanel are left out: button enabling in `updateEnabled`, the text field, and the form code. `DEFAULT_SIZE` comes from a Swing font and is a parameter.
- The label strings of SampleContentViewer are not modelled, and neither is the transient "Doing Analysis" text. `getTitle`, `getToolTip`, `createInstance` and `getComponent` return constants or the panel itself.
- The table renderer and column widths of the user activity panel are left out (`updateTopPrograms`). So are `getDataSource` and the generated form code.
- MapPanel and IngestMessageTopComponent are UI wiring and are outside this model.
- HealthMonitor.SubmitTimingMetric: does not model a `HealthMonitorException` from `getInstance` (243-247). That path exists only when construction failed. The retry then either fails, so the metric is logged and dropped, or succeeds, so the monitor is activated with a fresh map (see the line above).
- HealthMonitor.SetEnabled: deactivation does not model a failing pool close. The real `shutdownConnections` failure would raise after the map is cleared and the timer stopped.
- ZeroByteCounter.SetNode: states the label as structured data, not as its rendered text `"<n> out of <len> bytes were 0x00"`.
- TextZoom.TextSize: the `(int)` narrowing of `Math.round`'s `long` result is not modelled. Font sizes are far inside the `int` range.

=== FILE: aggregator.dfy ===
/**
 The in-memory timing map of ServicesHealthMonitor: one `TimingInfo` entry per
 metric name, created by the first metric of that name and merged into by every
 later one (`addTimingMetric`).
 */
module Aggregator {
  import opened TimingStats

  type TimingMap = map<string, TimingInfo>

  /** A stopped timing metric as it reaches the map: its name and measured duration. */
  datatype Submission = Submission(name: string, duration: int)

  /** Every entry of the map keeps the entry invariant. */
  predicate AllConsistent(m: TimingMap)
  {
    forall k :: k in m ==> Consistent(m[k])
  }

  /** Records one metric: merges it into the entry for its name, or creates that
      entry when the name is new. No other entry is touched. */
  function AddTimingMetric(m: TimingMap, name: string, d: int): (r: TimingMap)
    ensures r.Keys == m.Keys + {name}
    ensures name in m ==> r[name] == AddMetric(m[name], d)
    ensures name !in m ==> r[name] == NewTimingInfo(d)
    ensures forall k :: k in m && k != name ==> r[k] == m[k]
    ensures AllConsistent(m) ==> AllConsistent(r)
  {
    if name in m then m[name := AddMetric(m[name], d)] else m[name := NewTimingInfo(d)]
  }

  /** The map built by recording `log` in order, starting from an empty map. */
  function Record(log: seq<Submission>): TimingMap
  {
    if |log| == 0 then map[]
    else
      var last := log[|log| - 1];
      AddTimingMetric(Record(log[..|log| - 1]), last.name, last.duration)
  }

  /** Reference definition: the durations submitted under `name`, in order. */
  function DurationsOf(log: seq<Submission>, name: string): seq<int>
  {
    if |log| == 0 then []
    else
      var last := log[|log| - 1];
      DurationsOf(log[..|log| - 1], name) + (if last.name == name then [last.duration] else [])
  }

  /** After recording a log, `name` has an entry exactly when some metric of that
      name was submitted, and the entry summarises precisely those durations:
      count = number merged, sum, max and min of them. */
  lemma {:induction false} RecordSummarizesName(log: seq<Submission>, name: string)
    ensures name in Record(log) <==> |DurationsOf(log, name)| > 0
    ensures name in Record(log) ==> Summarizes(Record(log)[name], DurationsOf(log, name))
  {
    if |log| > 0 {
      var init := log[..|log| - 1];
      var last := log[|log| - 1];
      RecordSummarizesName(init, name);
      var before := Record(init);
      if last.name == name {
        if name in before {
          AddMetricExtends(before[name], DurationsOf(init, name), last.duration);
          assert DurationsOf(log, name) == DurationsOf(init, name) + [last.duration];
          assert Record(log)[name] == AddMetric(before[name], last.duration);
        } else {
          assert DurationsOf(log, name) == [last.duration];
          assert Record(log)[name] == NewTimingInfo(last.duration);
        }
      } else {
        assert DurationsOf(log, name) == DurationsOf(init, name) + [];
        assert DurationsOf(init, name) + [] == DurationsOf(init, name);
      }
    }
  }

  /** The statement of `RecordSummarizesName` for every name at once. */
  lemma RecordSummarizes(log: seq<Submission>)
    ensures forall k :: k in Record(log) <==> |DurationsOf(log, k)| > 0
    ensures forall k :: k in Record(log) ==> Summarizes(Record(log)[k], DurationsOf(log, k))
  {
    forall k
      ensures k in Record(log) <==> |DurationsOf(log, k)| > 0
      ensures k in Record(log) ==> Summarizes(Record(log)[k], DurationsOf(log, k))
    {
      RecordSummarizesName(log, k);
    }
  }

  /** The recorded map always satisfies the entry invariant. */
  lemma RecordConsistent(log: seq<Submission>)
    ensures AllConsistent(Record(log))
  {
    RecordSummarizes(log);
    forall k | k in Record(log)
      ensures Consistent(Record(log)[k])
    {
      SummarizesIsConsistent(Record(log)[k], DurationsOf(log, k));
    }
  }
}

=== FILE: health_monitor.dfy ===
/**
 The ServicesHealthMonitor facade as a sequential state machine: the
 process-wide enabled flag, the timing map, and whether the periodic database
 write task is scheduled.

 The coordination service (distributed locks) and the PostgreSQL database are
 not modelled; what they do during one activation or one flush is an input
 (`SetupEnv`, `FlushEnv`). Clock reads are inputs too: a metric's duration is
 given when it is submitted, and the timestamp of the i-th row written by a
 flush is `clock(i)`.
 */
module HealthMonitor {
  import opened Wrappers
  import opened TimingStats
  import opened Aggregator

  /** The failures reported as a `HealthMonitorException`. */
  datatype MonitorError =
    | MultiUserModeDisabled  // activation outside multi-user mode
    | LockUnavailable        // the coordination service did not grant the database lock
    | DatabaseFailure        // a database check, creation, initialisation, connection or insert failed
    | LockReleaseFailure     // releasing the lock failed; this replaces any error raised while holding it

  datatype Monitor = Monitor(enabled: bool, timing: TimingMap, timerScheduled: bool)

  /** A timing metric handed out by `getTimingMetric`; its duration is measured
      by the caller and supplied when it is submitted. */
  datatype TimingMetric = TimingMetric(name: string)

  /** What the lock service and the database do during one activation. */
  datatype SetupEnv = SetupEnv(lockGranted: bool, setupSucceeds: bool, releaseSucceeds: bool)

  /** What the lock service and the database do during one flush. `failingInsert`
      is the index of the first insert statement that fails, if any;
      `statementCloses` is false when closing the prepared insert statement
      fails, which the code reports like a failing insert. */
  datatype FlushEnv = FlushEnv(lockGranted: bool, connects: bool, failingInsert: Option<nat>,
                               statementCloses: bool, releaseSucceeds: bool)

  /** One row of the `timing_data` table. */
  datatype Row = Row(name: string, timestamp: int, count: int, average: int, max: int, min: int)

  /** A state change together with the exception it raised, if any. */
  datatype Step = Step(after: Monitor, raised: Option<MonitorError>)

  /** The outcome of a flush: the new state, the rows inserted, the exception raised. */
  datatype FlushResult = FlushResult(after: Monitor, written: seq<Row>, raised: Option<MonitorError>)

  /** A freshly constructed, disabled monitor. */
  const Initial: Monitor := Monitor(false, map[], false)

  /** The invariant of every reachable state: each timing entry is consistent. */
  predicate Valid(s: Monitor)
  {
    AllConsistent(s.timing)
  }

  predicate ActivationSucceeds(multiUser: bool, env: SetupEnv)
  {
    multiUser && env.lockGranted && env.setupSucceeds && env.releaseSucceeds
  }

  predicate FlushSucceeds(env: FlushEnv)
  {
    env.lockGranted && env.connects && env.failingInsert.None? && env.statementCloses && env.releaseSucceeds
  }

  // ---------------------------------------------------------------------------
  // Activation and deactivation
  // ---------------------------------------------------------------------------

  /** `activateMonitor`: requires multi-user mode, sets up the database under the
      exclusive lock, then clears the timing map and schedules the write task.
      A failing lock release replaces an error from the database setup. */
  function Activate(s: Monitor, multiUser: bool, env: SetupEnv): (r: Result<Monitor, MonitorError>)
    ensures r.Success? <==> ActivationSucceeds(multiUser, env)
    ensures r.Success? ==> r.value == s.(timing := map[], timerScheduled := true)
    ensures !multiUser ==> r == Failure(MultiUserModeDisabled)
    ensures multiUser && !env.lockGranted ==> r == Failure(LockUnavailable)
    ensures multiUser && env.lockGranted && !env.releaseSucceeds ==> r == Failure(LockReleaseFailure)
    ensures (multiUser && env.lockGranted && env.releaseSucceeds && !env.setupSucceeds)
              ==> r == Failure(DatabaseFailure)
  {
    if !multiUser then Failure(MultiUserModeDisabled)
    else if !env.lockGranted then Failure(LockUnavailable)
    else if !env.releaseSucceeds then Failure(LockReleaseFailure)
    else if !env.setupSucceeds then Failure(DatabaseFailure)
    else Success(s.(timing := map[], timerScheduled := true))
  }

  /** `deactivateMonitor`: discards the collected metrics and stops the write task. */
  function Deactivate(s: Monitor): (r: Monitor)
    ensures r.enabled == s.enabled
    ensures r.timing == map[] && !r.timerScheduled
  {
    s.(timing := map[], timerScheduled := false)
  }

  /** `setEnabled`: a no-op when the flag already has the requested value;
      otherwise the flag is set first and then the monitor is activated or
      deactivated. When activation fails the flag stays set, and the timing map
      and the write task are left as they were. */
  function SetEnabled(s: Monitor, enabled: bool, multiUser: bool, env: SetupEnv): (r: Step)
    ensures enabled == s.enabled ==> r == Step(s, None)
    ensures r.after.enabled == enabled
    ensures enabled && !s.enabled ==> (r.raised.None? <==> ActivationSucceeds(multiUser, env))
    ensures (enabled && !s.enabled && r.raised.None?)
              ==> r.after.timing == map[] && r.after.timerScheduled
    ensures enabled && !s.enabled && r.raised.Some? ==> r.after == s.(enabled := true)
    ensures enabled && !s.enabled && !multiUser ==> r.raised == Some(MultiUserModeDisabled)
    ensures !enabled && s.enabled ==> r == Step(Monitor(false, map[], false), None)
    ensures Valid(s) ==> Valid(r.after)
  {
    if enabled == s.enabled then Step(s, None)
    else if enabled then
      var flagged := s.(enabled := true);
      match Activate(flagged, multiUser, env)
      case Success(active) => Step(active, None)
      case Failure(e) => Step(flagged, Some(e))
    else
      Step(Deactivate(s.(enabled := false)), None)
  }

  /** The constructor: the monitor starts enabled (and is activated) only when
      the persisted setting is exactly "true"; otherwise it starts disabled. A
      failed activation raises, with the flag already set. */
  function Construct(setting: Option<string>, multiUser: bool, env: SetupEnv): (r: Step)
    ensures setting != Some("true") ==> r == Step(Initial, None)
    ensures setting == Some("true") ==> r.after.enabled
    ensures setting == Some("true") ==> (r.raised.None? <==> ActivationSucceeds(multiUser, env))
    ensures r.after.timing == map[]
    ensures r.raised.None? ==> r.after.timerScheduled == r.after.enabled
    ensures Valid(r.after)
    ensures r.raised.Some? ==> r.after == Monitor(true, map[], false)
    ensures setting == Some("true") && !multiUser ==> r.raised == Some(MultiUserModeDisabled)
  {
    if setting == Some("true") then SetEnabled(Initial, true, multiUser, env)
    else Step(Initial, None)
  }

  // ---------------------------------------------------------------------------
  // Submitting metrics
  // ---------------------------------------------------------------------------

  /** `getTimingMetric`: a metric handle while enabled, `null` otherwise. */
  function GetTimingMetric(s: Monitor, name: string): (r: Option<TimingMetric>)
    ensures r.Some? <==> s.enabled
    ensures r.Some? ==> r.value.name == name
  {
    if s.enabled then Some(TimingMetric(name)) else None
  }

  /** `submitTimingMetric`: records the metric's duration under its name while
      enabled; a `null` metric or a disabled monitor leaves the state unchanged.
      It never raises. */
  function SubmitTimingMetric(s: Monitor, metric: Option<TimingMetric>, duration: int): (r: Monitor)
    ensures !s.enabled || metric.None? ==> r == s
    ensures s.enabled && metric.Some? ==>
              r == s.(timing := AddTimingMetric(s.timing, metric.value.name, duration))
    ensures Valid(s) ==> Valid(r)
  {
    if s.enabled && metric.Some? then
      s.(timing := AddTimingMetric(s.timing, metric.value.name, duration))
    else
      s
  }

  /** A caller's sequence of measurements: for each submission it obtains a
      metric handle from the current state and submits it with its duration. */
  function SubmitAll(s: Monitor, log: seq<Submission>): Monitor
  {
    if |log| == 0 then s
    else
      var last := log[|log| - 1];
      var before := SubmitAll(s, log[..|log| - 1]);
      SubmitTimingMetric(before, GetTimingMetric(before, last.name), last.duration)
  }

  // ---------------------------------------------------------------------------
  // Writing to the database
  // ---------------------------------------------------------------------------

  /** `order` lists every key of the map exactly once (a HashMap iteration order). */
  predicate IsEnumeration(order: seq<string>, keys: set<string>)
  {
    && (forall i, j :: 0 <= i < j < |order| ==> order[i] != order[j])
    && (forall i :: 0 <= i < |order| ==> order[i] in keys)
    && (forall k :: k in keys ==> k in order)
  }

  /** `row` carries the count, average, maximum and minimum of `info`. */
  predicate Reports(row: Row, info: TimingInfo)
  {
    && info.count >= 1
    && row.count == info.count
    && row.average == Average(info)
    && row.max == info.max
    && row.min == info.min
  }

  /** `rows` hold exactly one row per name of `snapshot`, each carrying that
      name's entry. */
  ghost predicate ReportsSnapshot(rows: seq<Row>, snapshot: TimingMap)
  {
    && (forall i :: 0 <= i < |rows| ==> rows[i].name in snapshot && Reports(rows[i], snapshot[rows[i].name]))
    && (forall i, j :: 0 <= i < j < |rows| ==> rows[i].name != rows[j].name)
    && (forall k :: k in snapshot ==> exists i :: 0 <= i < |rows| && rows[i].name == k)
  }

  /** The insert statements of one flush, in iteration order. */
  function Rows(snapshot: TimingMap, order: seq<string>, clock: nat -> int): (rows: seq<Row>)
    requires AllConsistent(snapshot)
    requires forall i :: 0 <= i < |order| ==> order[i] in snapshot
    ensures |rows| == |order|
    ensures forall i :: 0 <= i < |rows| ==>
              rows[i].name == order[i] && rows[i].timestamp == clock(i) && Reports(rows[i], snapshot[order[i]])
  {
    seq(|order|, i requires 0 <= i < |order| =>
      var info := snapshot[order[i]];
      Row(order[i], clock(i), info.count, Average(info), info.max, info.min))
  }

  /** `writeCurrentStateToDatabase`. While disabled it returns at once.
      Otherwise it copies and clears the timing map, skips an empty copy, and
      inserts one row per name under the shared lock. The copy is gone from the
      live map even when the lock, the connection or an insert fails; inserts
      before a failing one stay written. */
  function Flush(s: Monitor, order: seq<string>, clock: nat -> int, env: FlushEnv): (r: FlushResult)
    requires Valid(s)
    requires s.enabled ==> IsEnumeration(order, s.timing.Keys)
    ensures !s.enabled ==> r == FlushResult(s, [], None)
    ensures s.enabled ==> r.after == s.(timing := map[])
    ensures s.enabled && s.timing == map[] ==> r.written == [] && r.raised == None
    ensures (s.enabled && s.timing != map[] && !env.lockGranted)
              ==> r.written == [] && r.raised == Some(LockUnavailable)
    ensures (s.enabled && s.timing != map[] && env.lockGranted && !env.releaseSucceeds)
              ==> r.raised == Some(LockReleaseFailure)
    ensures (s.enabled && s.timing != map[] && env.lockGranted && !env.connects)
              ==> r.written == []
    ensures (s.enabled && s.timing != map[] && env.lockGranted && env.connects
             && env.failingInsert.Some? && env.failingInsert.value < |order|)
              ==> |r.written| == env.failingInsert.value
    ensures (s.enabled && s.timing != map[] && env.lockGranted && env.connects
             && !(env.failingInsert.Some? && env.failingInsert.value < |order|))
              ==> |r.written| == |order|
    ensures (s.enabled && s.timing != map[] && env.lockGranted && env.releaseSucceeds)
              ==> (r.raised == Some(DatabaseFailure)
                   <==> (|| !env.connects
                         || (env.failingInsert.Some? && env.failingInsert.value < |order|)
                         || !env.statementCloses))
    ensures (s.enabled && s.timing != map[] && env.lockGranted && env.releaseSucceeds && env.connects
             && !(env.failingInsert.Some? && env.failingInsert.value < |order|) && env.statementCloses)
              ==> r.raised == None
    ensures s.enabled && FlushSucceeds(env) ==> r.raised == None && ReportsSnapshot(r.written, s.timing)
    ensures s.enabled && r.raised == None ==> ReportsSnapshot(r.written, s.timing)
    ensures |r.written| <= |order|
    ensures forall i :: 0 <= i < |r.written| ==>
              && r.written[i].name == order[i]
              && r.written[i].timestamp == clock(i)
              && r.written[i].name in s.timing
              && Reports(r.written[i], s.timing[order[i]])
    ensures Valid(r.after)
  {
    if !s.enabled then FlushResult(s, [], None)
    else
      var snapshot := s.timing;
      var cleared := s.(timing := map[]);
      if snapshot == map[] then FlushResult(cleared, [], None)
      else if !env.lockGranted then FlushResult(cleared, [], Some(LockUnavailable))
      else
        var batch := Rows(snapshot, order, clock);
        var insertFails := env.failingInsert.Some? && env.failingInsert.value < |batch|;
        var written :=
          if !env.connects then []
          else if insertFails then batch[..env.failingInsert.value]
          else batch;
        var raised :=
          if !env.releaseSucceeds then Some(LockReleaseFailure)
          else if !env.connects || insertFails || !env.statementCloses then Some(DatabaseFailure)
          else None;
        assert raised == None ==> ReportsSnapshot(written, snapshot) by {
          RowsReportSnapshot(snapshot, order, clock);
        }
        FlushResult(cleared, written, raised)
  }

  /** The periodic write task: one flush whose exception is logged and dropped,
      so the task stays scheduled. */
  function WriteTask(s: Monitor, order: seq<string>, clock: nat -> int, env: FlushEnv): (r: FlushResult)
    requires Valid(s)
    requires s.enabled ==> IsEnumeration(order, s.timing.Keys)
    ensures r.raised == None
    ensures r.after.timerScheduled == s.timerScheduled && r.after.enabled == s.enabled
    ensures r.written == Flush(s, order, clock, env).written
    ensures s.enabled ==> r.after.timing == map[]
    ensures !s.enabled ==> r == FlushResult(s, [], None)
    ensures Valid(r.after)
  {
    var f := Flush(s, order, clock, env);
    FlushResult(f.after, f.written, None)
  }

  /** `close`, at application shutdown: when enabled, stops the write task and
      makes a final flush whose exception is logged and dropped. The enabled flag
      is left as it is. */
  function Close(s: Monitor, order: seq<string>, clock: nat -> int, env: FlushEnv): (r: FlushResult)
    requires Valid(s)
    requires s.enabled ==> IsEnumeration(order, s.timing.Keys)
    ensures r.raised == None
    ensures !s.enabled ==> r == FlushResult(s, [], None)
    ensures s.enabled ==> r.after == Monitor(true, map[], false)
    ensures s.enabled && FlushSucceeds(env) ==> ReportsSnapshot(r.written, s.timing)
    ensures s.enabled ==> r.written == Flush(s, order, clock, env).written
  {
    if !s.enabled then FlushResult(s, [], None)
    else
      var f := Flush(s.(timerScheduled := false), order, clock, env);
      FlushResult(f.after, f.written, None)
  }

  // ---------------------------------------------------------------------------
  // Lemmas
  // ---------------------------------------------------------------------------

  /** The full batch of a flush holds exactly one row per name of the snapshot. */
  lemma RowsReportSnapshot(snapshot: TimingMap, order: seq<string>, clock: nat -> int)
    requires AllConsistent(snapshot)
    requires IsEnumeration(order, snapshot.Keys)
    ensures ReportsSnapshot(Rows(snapshot, order, clock), snapshot)
  {
    var rows := Rows(snapshot, order, clock);
    forall k | k in snapshot
      ensures exists i :: 0 <= i < |rows| && rows[i].name == k
    {
      var i :| 0 <= i < |order| && order[i] == k;
      assert rows[i].name == k;
    }
  }

  /** While disabled, any number of measurements leaves the monitor unchanged. */
  lemma {:induction false} DisabledSubmitsIgnored(s: Monitor, log: seq<Submission>)
    requires !s.enabled
    ensures SubmitAll(s, log) == s
  {
    if |log| > 0 {
      DisabledSubmitsIgnored(s, log[..|log| - 1]);
    }
  }

  /** While enabled and starting from an empty map, the measurements build
      exactly the map that recording the log builds. */
  lemma {:induction false} SubmitAllRecords(s: Monitor, log: seq<Submission>)
    requires s.enabled && s.timing == map[]
    ensures SubmitAll(s, log) == s.(timing := Record(log))
  {
    if |log| > 0 {
      SubmitAllRecords(s, log[..|log| - 1]);
    }
  }

  /** A successful flush of the recorded map emits a row for a name exactly
      when some metric of that name was submitted. */
  lemma FlushCoversSubmittedNames(s: Monitor, log: seq<Submission>, order: seq<string>,
                                  clock: nat -> int, env: FlushEnv)
    requires s.enabled && s.timing == Record(log)
    requires IsEnumeration(order, s.timing.Keys)
    requires FlushSucceeds(env)
    ensures Valid(s)
    ensures
      var f := Flush(s, order, clock, env);
      && f.raised == None
      && (forall k :: |DurationsOf(log, k)| > 0 <==> exists i :: 0 <= i < |f.written| && f.written[i].name == k)
  {
    RecordSummarizes(log);
    RecordConsistent(log);
  }

  /** Each row of a flush of the recorded map carries the statistics of the
      durations submitted under its name: their number, their maximum and
      minimum, and an average between the two. */
  lemma FlushRowsSummarizeDurations(s: Monitor, log: seq<Submission>, order: seq<string>,
                                    clock: nat -> int, env: FlushEnv)
    requires s.enabled && s.timing == Record(log)
    requires IsEnumeration(order, s.timing.Keys)
    ensures Valid(s)
    ensures
      var f := Flush(s, order, clock, env);
      forall i :: 0 <= i < |f.written| ==>
        var ds := DurationsOf(log, f.written[i].name);
        && f.written[i].count == |ds|
        && f.written[i].max in ds && f.written[i].min in ds
        && (forall j :: 0 <= j < |ds| ==> f.written[i].min <= ds[j] <= f.written[i].max)
        && f.written[i].min <= f.written[i].average <= f.written[i].max
  {
    RecordConsistent(log);
    var f := Flush(s, order, clock, env);
    forall i | 0 <= i < |f.written|
      ensures
        var ds := DurationsOf(log, f.written[i].name);
        && f.written[i].count == |ds|
        && f.written[i].max in ds && f.written[i].min in ds
        && (forall j :: 0 <= j < |ds| ==> f.written[i].min <= ds[j] <= f.written[i].max)
        && f.written[i].min <= f.written[i].average <= f.written[i].max
    {
      RowSummarizesDurations(log, f.written[i]);
    }
  }

  /** A row reporting the recorded entry of its name carries the statistics of
      that name's submitted durations. */
  lemma RowSummarizesDurations(log: seq<Submission>, row: Row)
    requires row.name in Record(log) && Reports(row, Record(log)[row.name])
    ensures
      var ds := DurationsOf(log, row.name);
      && row.count == |ds|
      && row.max in ds && row.min in ds
      && (forall j :: 0 <= j < |ds| ==> row.min <= ds[j] <= row.max)
      && row.min <= row.average <= row.max
  {
    RecordSummarizesName(log, row.name);
    AverageWithinBounds(Record(log)[row.name], DurationsOf(log, row.name));
  }

  /** Every measurement submitted between an activation and the next successful
      flush is written exactly once: one row per submitted name, none for any
      other name, each carrying the statistics of that name's durations. */
  lemma SubmittedThenFlushed(s: Monitor, log: seq<Submission>, order: seq<string>,
                             clock: nat -> int, env: FlushEnv)
    requires s.enabled && s.timing == map[]
    requires IsEnumeration(order, Record(log).Keys)
    requires FlushSucceeds(env)
    ensures SubmitAll(s, log) == s.(timing := Record(log))
    ensures Valid(SubmitAll(s, log))
    ensures
      var f := Flush(SubmitAll(s, log), order, clock, env);
      && f.raised == None
      && f.after.timing == map[]
      && (forall k :: |DurationsOf(log, k)| > 0 <==> exists i :: 0 <= i < |f.written| && f.written[i].name == k)
      && (forall i :: 0 <= i < |f.written| ==> f.written[i].count == |DurationsOf(log, f.written[i].name)|)
  {
    SubmitAllRecords(s, log);
    FlushCoversSubmittedNames(SubmitAll(s, log), log, order, clock, env);
    FlushRowsSummarizeDurations(SubmitAll(s, log), log, order, clock, env);
  }

  /** Disabling and re-enabling discards everything collected before: a flush
      right after a successful re-activation writes nothing. */
  lemma ReenableDiscards(s: Monitor, multiUser: bool, env: SetupEnv, clock: nat -> int, fenv: FlushEnv)
    requires s.enabled && Valid(s)
    requires ActivationSucceeds(multiUser, env)
    ensures
      var off := SetEnabled(s, false, multiUser, env).after;
      var on := SetEnabled(off, true, multiUser, env);
      && on.raised == None
      && on.after.enabled
      && Flush(on.after, [], clock, fenv) == FlushResult(on.after, [], None)
  {
  }

  /** On a constructed monitor, `setEnabled` sets the flag before activating:
      after an activation that failed, the monitor reports itself enabled with
      no write task scheduled, and a second `setEnabled(true)` returns at once
      without activating. */
  lemma FailedActivationIsNotRetried(s: Monitor, multiUser: bool, env: SetupEnv, env2: SetupEnv)
    requires !s.enabled && !ActivationSucceeds(multiUser, env)
    ensures
      var first := SetEnabled(s, true, multiUser, env);
      && first.raised.Some?
      && first.after.enabled
      && first.after.timerScheduled == s.timerScheduled
      && SetEnabled(first.after, true, true, env2) == Step(first.after, None)
  {
  }

  /** Three "scan" metrics of 10, 20 and 30 ns give one entry with count 3,
      sum 60, maximum 30 and minimum 10, which a flush writes as one row with
      average 20. */
  lemma ScanScenario(clock: nat -> int)
    ensures
      Record([Submission("scan", 10), Submission("scan", 20), Submission("scan", 30)])
        == map["scan" := TimingInfo(3, 60, 30, 10)]
    ensures
      var f := Flush(Monitor(true, map["scan" := TimingInfo(3, 60, 30, 10)], true), ["scan"], clock,
                     FlushEnv(true, true, None, true, true));
      f.written == [Row("scan", clock(0), 3, 20, 30, 10)] && f.raised == None
  {
    var log := [Submission("scan", 10), Submission("scan", 20), Submission("scan", 30)];
    assert Record(log[..1]) == map["scan" := TimingInfo(1, 10, 10, 10)];
    assert Record(log[..2]) == map["scan" := TimingInfo(2, 30, 20, 10)];
    assert Average(TimingInfo(3, 60, 30, 10)) == 20;
  }
}

=== FILE: text_zoom.dfy ===
/**
 The zoom state of TextZoomPanel (keyword search text viewer): an index into a
 fixed table of zoom factors, starting at 100%, moved by the zoom-in, zoom-out
 and reset buttons. Every move goes through one guarded step: it applies only
 when there is a component to resize and the new index is inside the table.

 The zoom factors are doubles in the code; every one of them is a dyadic
 fraction, so they are exact as rationals here.
 */
module TextZoom {

  /** The zoom factors, smallest first. */
  const ZoomSteps: seq<real> :=
    [0.0625, 0.125, 0.25, 0.375, 0.5, 0.75,
     1.0, 1.5, 2.0, 2.5, 3.0, 4.0, 5.0, 6.0, 8.0, 10.0]

  /** The index of the 100% factor. */
  const DefaultStepIdx: int := 6

  /** The panel's zoom state: whether a resizable component was supplied (the
      `zoomable` field is non-null) and the current index into `ZoomSteps`. */
  datatype Panel = Panel(hasZoomable: bool, curStepIndex: int)

  /** The invariant of every panel: the index lies inside the table. */
  predicate Valid(p: Panel)
  {
    0 <= p.curStepIndex < |ZoomSteps|
  }

  /** Java's `Math.round` on a double: round half up. */
  function JavaRound(x: real): (r: int)
    ensures r as real <= x + 0.5 < r as real + 1.0
  {
    (x + 0.5).Floor
  }

  /** The percentage shown in the zoom text field (`setZoomText`). */
  function ZoomPercent(p: Panel): (r: int)
    requires Valid(p)
    ensures r as real - 0.5 <= ZoomSteps[p.curStepIndex] * 100.0 < r as real + 0.5
    ensures 6 <= r <= 1000
  {
    JavaRound(ZoomSteps[p.curStepIndex] * 100.0)
  }

  /** The font size sent to the resizable component after a successful step:
      the step's factor times the default font size, rounded. At the 100% step
      it is the default size itself, and a larger step never gives a smaller
      size. */
  function TextSize(p: Panel, defaultSize: nat): (r: int)
    requires Valid(p)
    ensures r == JavaRound(ZoomSteps[p.curStepIndex] * defaultSize as real)
    ensures p.curStepIndex == DefaultStepIdx ==> r == defaultSize
    ensures forall q :: Valid(q) && q.curStepIndex <= p.curStepIndex ==>
              JavaRound(ZoomSteps[q.curStepIndex] * defaultSize as real) <= r
  {
    forall q | Valid(q) && q.curStepIndex <= p.curStepIndex
      ensures JavaRound(ZoomSteps[q.curStepIndex] * defaultSize as real)
                <= JavaRound(ZoomSteps[p.curStepIndex] * defaultSize as real)
    {
      if q.curStepIndex < p.curStepIndex {
        StepsStrictlyIncreasing(q.curStepIndex, p.curStepIndex);
      }
    }
    JavaRound(ZoomSteps[p.curStepIndex] * defaultSize as real)
  }

  /** A new panel starts at the 100% step. */
  function NewPanel(hasZoomable: bool): (p: Panel)
    ensures Valid(p) && p.hasZoomable == hasZoomable
    ensures p.curStepIndex == DefaultStepIdx
    ensures ZoomSteps[p.curStepIndex] == 1.0 && ZoomPercent(p) == 100
  {
    Panel(hasZoomable, DefaultStepIdx)
  }

  /** `zoomStep`: moves to `newStep` only when there is a component to resize and
      `newStep` indexes the table; otherwise nothing changes. */
  function ZoomStep(p: Panel, newStep: int): (r: Panel)
    ensures r.hasZoomable == p.hasZoomable
    ensures (p.hasZoomable && 0 <= newStep < |ZoomSteps|) ==> r.curStepIndex == newStep
    ensures !(p.hasZoomable && 0 <= newStep < |ZoomSteps|) ==> r == p
    ensures Valid(p) ==> Valid(r)
  {
    if p.hasZoomable && 0 <= newStep < |ZoomSteps| then p.(curStepIndex := newStep) else p
  }

  /** `zoomIncrement`: one step up, clamped at the largest factor. */
  function ZoomIncrement(p: Panel): (r: Panel)
    ensures Valid(p) ==> Valid(r)
    ensures !p.hasZoomable ==> r == p
    ensures p.curStepIndex == |ZoomSteps| - 1 ==> r == p
    ensures (Valid(p) && p.hasZoomable && p.curStepIndex < |ZoomSteps| - 1)
              ==> r == p.(curStepIndex := p.curStepIndex + 1) && ZoomSteps[p.curStepIndex] < ZoomSteps[r.curStepIndex]
  {
    AdjacentStepsIncrease();
    ZoomStep(p, p.curStepIndex + 1)
  }

  /** `zoomDecrement`: one step down, clamped at the smallest factor. */
  function ZoomDecrement(p: Panel): (r: Panel)
    ensures Valid(p) ==> Valid(r)
    ensures !p.hasZoomable ==> r == p
    ensures p.curStepIndex == 0 ==> r == p
    ensures (Valid(p) && p.hasZoomable && p.curStepIndex > 0)
              ==> r == p.(curStepIndex := p.curStepIndex - 1) && ZoomSteps[r.curStepIndex] < ZoomSteps[p.curStepIndex]
  {
    AdjacentStepsIncrease();
    ZoomStep(p, p.curStepIndex - 1)
  }

  /** `resetSize`: back to the 100% step when there is a component to resize. */
  function ResetSize(p: Panel): (r: Panel)
    ensures p.hasZoomable ==> r == p.(curStepIndex := DefaultStepIdx)
    ensures !p.hasZoomable ==> r == p
    ensures Valid(p) ==> Valid(r)
  {
    ZoomStep(p, DefaultStepIdx)
  }

  /** The three buttons of the panel. */
  datatype ZoomAction = ZoomIn | ZoomOut | Reset

  function Apply(p: Panel, a: ZoomAction): Panel
  {
    match a
    case ZoomIn => ZoomIncrement(p)
    case ZoomOut => ZoomDecrement(p)
    case Reset => ResetSize(p)
  }

  /** The panel after pressing the buttons `actions` in order. */
  function ApplyAll(p: Panel, actions: seq<ZoomAction>): Panel
    decreases |actions|
  {
    if |actions| == 0 then p else ApplyAll(Apply(p, actions[0]), actions[1..])
  }

  // ---------------------------------------------------------------------------
  // Lemmas
  // ---------------------------------------------------------------------------

  lemma AdjacentStepsIncrease()
    ensures forall i :: 0 <= i < |ZoomSteps| - 1 ==> ZoomSteps[i] < ZoomSteps[i + 1]
  {
  }

  /** The zoom factors are strictly increasing. */
  lemma {:induction false} StepsStrictlyIncreasing(i: int, j: int)
    requires 0 <= i < j < |ZoomSteps|
    ensures ZoomSteps[i] < ZoomSteps[j]
    decreases j - i
  {
    AdjacentStepsIncrease();
    if i + 1 < j {
      StepsStrictlyIncreasing(i + 1, j);
    }
  }

  /** A higher step never sends a smaller font size. */
  lemma TextSizeMonotone(p: Panel, q: Panel, defaultSize: nat)
    requires Valid(p) && Valid(q)
    requires p.curStepIndex <= q.curStepIndex
    ensures TextSize(p, defaultSize) <= TextSize(q, defaultSize)
  {
  }

  /** Resetting twice is the same as resetting once. */
  lemma ResetIdempotent(p: Panel)
    ensures ResetSize(ResetSize(p)) == ResetSize(p)
  {
  }

  /** No sequence of button presses takes the index outside the table. */
  lemma {:induction false} ApplyAllValid(p: Panel, actions: seq<ZoomAction>)
    requires Valid(p)
    ensures Valid(ApplyAll(p, actions))
    decreases |actions|
  {
    if |actions| > 0 {
      ApplyAllValid(Apply(p, actions[0]), actions[1..]);
    }
  }

  /** Without a component to resize, no button press moves the index. */
  lemma {:induction false} WithoutZoomableNothingMoves(p: Panel, actions: seq<ZoomAction>)
    requires !p.hasZoomable
    ensures ApplyAll(p, actions) == p
    decreases |actions|
  {
    if |actions| > 0 {
      WithoutZoomableNothingMoves(Apply(p, actions[0]), actions[1..]);
    }
  }

  /** A panel built without a component to resize stays at the 100% step. */
  lemma WithoutZoomableStaysAtDefault(actions: seq<ZoomAction>)
    ensures ApplyAll(NewPanel(false), actions).curStepIndex == DefaultStepIdx
  {
    WithoutZoomableNothingMoves(NewPanel(false), actions);
  }

  /** The percentages shown for the sixteen steps. */
  lemma PercentLabels()
    ensures forall i :: 0 <= i < |ZoomSteps| ==>
              ZoomPercent(Panel(true, i))
                == [6, 13, 25, 38, 50, 75, 100, 150, 200, 250, 300, 400, 500, 600, 800, 1000][i]
  {
  }

  /** A higher step always shows a larger percentage. */
  lemma PercentStrictlyIncreasing(p: Panel, q: Panel)
    requires Valid(p) && Valid(q)
    requires p.curStepIndex < q.curStepIndex
    ensures ZoomPercent(p) < ZoomPercent(q)
  {
    PercentLabels();
    assert ZoomPercent(p) == ZoomPercent(Panel(true, p.curStepIndex));
    assert ZoomPercent(q) == ZoomPercent(Panel(true, q.curStepIndex));
  }
}

=== FILE: timing_stats.dfy ===
/**
 Running statistics for one timing-metric name: the `TimingInfo` inner class of
 ServicesHealthMonitor. Instead of keeping every duration, an entry keeps the
 number of durations merged, their sum, the largest and the smallest; the
 average is computed when the entry is written out.

 Durations are nanosecond counts held in a Java `long`; here they are unbounded
 integers (overflow of the sum is not modelled), and they may be negative.
 */
module TimingStats {

  datatype TimingInfo = TimingInfo(count: int, sum: int, max: int, min: int)

  /** The sum of a sequence of durations, added in order. */
  function Sum(ds: seq<int>): int
  {
    if |ds| == 0 then 0 else Sum(ds[..|ds| - 1]) + ds[|ds| - 1]
  }

  /** Reference meaning of an entry: `t` summarises exactly the durations `ds`. */
  ghost predicate Summarizes(t: TimingInfo, ds: seq<int>)
  {
    && |ds| > 0
    && t.count == |ds|
    && t.sum == Sum(ds)
    && t.max in ds
    && t.min in ds
    && (forall i :: 0 <= i < |ds| ==> t.min <= ds[i] <= t.max)
  }

  /** The invariant every entry keeps: at least one duration, and the sum lies
      between count * min and count * max. */
  predicate Consistent(t: TimingInfo)
  {
    && t.count >= 1
    && t.min <= t.max
    && t.count * t.min <= t.sum <= t.count * t.max
  }

  /** Java's `long` division for a positive divisor: the quotient is truncated
      toward zero (Dafny's own `/` rounds toward negative infinity). */
  function TruncDiv(a: int, b: int): (q: int)
    requires b > 0
    ensures a >= 0 ==> q * b <= a < q * b + b
    ensures a < 0 ==> q * b - b < a <= q * b
  {
    if a >= 0 then a / b else -((-a) / b)
  }

  /** The entry created for the first metric of a name (the TimingInfo constructor). */
  function NewTimingInfo(d: int): (r: TimingInfo)
    ensures Summarizes(r, [d])
    ensures Consistent(r)
  {
    TimingInfo(1, d, d, d)
  }

  /** Merges one more duration into an existing entry (`addMetric`). */
  function AddMetric(t: TimingInfo, d: int): (r: TimingInfo)
    ensures r.count == t.count + 1
    ensures r.sum == t.sum + d
    ensures r.max >= t.max && r.max >= d && (r.max == t.max || r.max == d)
    ensures r.min <= t.min && r.min <= d && (r.min == t.min || r.min == d)
    ensures Consistent(t) ==> Consistent(r)
  {
    var r := TimingInfo(t.count + 1, t.sum + d,
                        if t.max < d then d else t.max,
                        if t.min > d then d else t.min);
    assert Consistent(t) ==> Consistent(r) by {
      if Consistent(t) {
        AddMetricConsistent(t, d, r);
      }
    }
    r
  }

  /** The average duration written for an entry (`getAverage`): the sum divided
      by the count with Java's truncating division. */
  function Average(t: TimingInfo): (r: int)
    requires t.count >= 1
    ensures Consistent(t) ==> t.min <= r <= t.max
    ensures t.sum >= 0 ==> r * t.count <= t.sum < r * t.count + t.count
    ensures t.sum < 0 ==> r * t.count - t.count < t.sum <= r * t.count
  {
    var q := TruncDiv(t.sum, t.count);
    assert Consistent(t) ==> t.min <= q <= t.max by {
      if Consistent(t) {
        TruncDivBetween(t.sum, t.count, t.min, t.max);
      }
    }
    q
  }

  /** The entry obtained by creating it from the first duration of `ds` and
      merging the remaining ones in order. */
  function FromDurations(ds: seq<int>): (r: TimingInfo)
    requires |ds| > 0
    ensures Summarizes(r, ds)
    ensures Consistent(r)
  {
    if |ds| == 1 then
      NewTimingInfo(ds[0])
    else
      var t := FromDurations(ds[..|ds| - 1]);
      assert ds == ds[..|ds| - 1] + [ds[|ds| - 1]];
      AddMetricExtends(t, ds[..|ds| - 1], ds[|ds| - 1]);
      AddMetric(t, ds[|ds| - 1])
  }

  // ---------------------------------------------------------------------------
  // Lemmas
  // ---------------------------------------------------------------------------

  /** Merging a duration into a consistent entry keeps it consistent. */
  lemma AddMetricConsistent(t: TimingInfo, d: int, r: TimingInfo)
    requires Consistent(t)
    requires r.count == t.count + 1 && r.sum == t.sum + d
    requires r.max >= t.max && r.max >= d
    requires r.min <= t.min && r.min <= d
    ensures Consistent(r)
  {
    MulMonotone(r.min, t.min, t.count);
    MulMonotone(t.max, r.max, t.count);
    assert r.count * r.min == t.count * r.min + r.min;
    assert r.count * r.max == t.count * r.max + r.max;
  }

  /** Multiplying both sides of `a <= b` by a non-negative factor keeps the order. */
  lemma MulMonotone(a: int, b: int, c: int)
    requires a <= b && c >= 0
    ensures a * c <= b * c
  {
    assert b * c - a * c == (b - a) * c;
  }

  lemma SumAppend(ds: seq<int>, d: int)
    ensures Sum(ds + [d]) == Sum(ds) + d
  {
    assert (ds + [d])[..|ds|] == ds;
  }

  /** Merging a duration into the summary of `ds` gives the summary of `ds + [d]`. */
  lemma AddMetricExtends(t: TimingInfo, ds: seq<int>, d: int)
    requires Summarizes(t, ds)
    ensures Summarizes(AddMetric(t, d), ds + [d])
  {
    var r := AddMetric(t, d);
    var e := ds + [d];
    SumAppend(ds, d);
    assert forall i :: 0 <= i < |ds| ==> e[i] == ds[i];
    assert e[|ds|] == d;
    assert r.max in e && r.min in e;
  }

  /** If every duration lies in [lo, hi], the sum lies in [n * lo, n * hi]. */
  lemma {:induction false} SumBounds(ds: seq<int>, lo: int, hi: int)
    requires forall i :: 0 <= i < |ds| ==> lo <= ds[i] <= hi
    ensures |ds| * lo <= Sum(ds) <= |ds| * hi
  {
    if |ds| > 0 {
      var init := ds[..|ds| - 1];
      assert forall i :: 0 <= i < |init| ==> init[i] == ds[i];
      SumBounds(init, lo, hi);
      assert |ds| * lo == |init| * lo + lo;
      assert |ds| * hi == |init| * hi + hi;
    }
  }

  /** A summary of real durations always satisfies the entry invariant. */
  lemma SummarizesIsConsistent(t: TimingInfo, ds: seq<int>)
    requires Summarizes(t, ds)
    ensures Consistent(t)
  {
    SumBounds(ds, t.min, t.max);
    assert ds[0] in ds;
  }

  /** A positive factor does not change the sign of a product. */
  lemma NegativeProductFactor(x: int, c: int)
    requires c > 0
    ensures x * c < 0 ==> x < 0
  {
    if x >= 0 {
      MulMonotone(0, x, c);
    }
  }

  /** A truncated quotient of a value between c * lo and c * hi lies in [lo, hi]. */
  lemma TruncDivBetween(s: int, c: int, lo: int, hi: int)
    requires c > 0
    requires c * lo <= s <= c * hi
    ensures lo <= TruncDiv(s, c) <= hi
  {
    var q := TruncDiv(s, c);
    assert c * lo < q * c + c && q * c < c * hi + c;
    assert (lo - 1 - q) * c == c * lo - c - q * c;
    assert (q - hi - 1) * c == q * c - c * hi - c;
    NegativeProductFactor(lo - 1 - q, c);
    NegativeProductFactor(q - hi - 1, c);
  }

  /** The average of the merged durations lies between their minimum and maximum. */
  lemma AverageWithinBounds(t: TimingInfo, ds: seq<int>)
    requires Summarizes(t, ds)
    ensures forall i :: 0 <= i < |ds| ==> t.min <= ds[i] <= t.max
    ensures t.min <= Average(t) <= t.max
  {
    SummarizesIsConsistent(t, ds);
  }
}

=== FILE: top_programs.dfy ===
/**
 The top-programs table of the data source summary's user activity panel
 (`TopProgramsModel` in DataSourceSummaryUserActivityPanel): a read-only,
 bounds-checked view of a list of program results with three columns.

 The query that produces the list (`DataSourceInfoUtilities.getTopPrograms`)
 and the shortening of a program's folder path (`getShortFolderName`) are not
 modelled; both are supplied as functions.
 */
module TopPrograms {
  import opened Wrappers

  /** One row of the query's result (`TopProgramsResult`). */
  datatype ProgramResult = ProgramResult(programName: string, programPath: string, runTimes: int)

  /** A data source whose programs are summarised. */
  datatype DataSource = DataSource(id: int)

  /** A non-null table cell: a string or a run count. */
  datatype Cell = Text(text: string) | Number(n: int)

  /** The column headers: program name, folder, run count. */
  const ColumnHeaders: seq<string> := ["Program", "Folder", "Run Times"]

  /** The number of programs the panel asks the query for. */
  const TopProgsCount: int := 10

  datatype Model = Model(programResults: seq<ProgramResult>)

  /** The model's constructor: a `null` list gives an empty model. */
  function NewModel(results: Option<seq<ProgramResult>>): (m: Model)
    ensures results.None? ==> GetRowCount(m) == 0
    ensures results.Some? ==> m.programResults == results.value && GetRowCount(m) == |results.value|
  {
    match results
    case None => Model([])
    case Some(list) => Model(list)
  }

  /** `getRowCount`: one row per program result. */
  function GetRowCount(m: Model): (r: nat)
    ensures r == |m.programResults|
  {
    |m.programResults|
  }

  /** `getColumnCount`: always the three columns of the header table. */
  function GetColumnCount(m: Model): (r: int)
    ensures r == 3 && r == |ColumnHeaders|
  {
    |ColumnHeaders|
  }

  /** `getColumnName`: the header of an existing column, `null` for any other index. */
  function GetColumnName(column: int): (r: Option<string>)
    ensures r.Some? <==> 0 <= column < |ColumnHeaders|
    ensures r.Some? ==> r.value == ColumnHeaders[column]
    ensures column == 0 ==> r == Some("Program")
    ensures column == 2 ==> r == Some("Run Times")
  {
    if column < 0 || column >= |ColumnHeaders| then None else Some(ColumnHeaders[column])
  }

  /** `getValueAt`: `null` outside the table; otherwise the program name, its
      shortened folder, or its run count, by column. */
  function GetValueAt(m: Model, row: int, column: int, shortFolderName: string -> string): (r: Option<Cell>)
    ensures r.Some? <==> 0 <= row < GetRowCount(m) && 0 <= column < GetColumnCount(m)
    ensures r.Some? && column == 0 ==> r.value == Text(m.programResults[row].programName)
    ensures r.Some? && column == 1 ==> r.value == Text(shortFolderName(m.programResults[row].programPath))
    ensures r.Some? && column == 2 ==> r.value == Number(m.programResults[row].runTimes)
  {
    if row < 0 || row >= |m.programResults| then None
    else
      var result := m.programResults[row];
      if column == 0 then Some(Text(result.programName))
      else if column == 1 then Some(Text(shortFolderName(result.programPath)))
      else if column == 2 then Some(Number(result.runTimes))
      else None
  }

  /** `setDataSource`: without a data source or an open case the table is
      emptied; otherwise it shows what the query returns for the data source
      (an empty table when the query returns `null`). */
  function SetDataSource(dataSource: Option<DataSource>, caseOpen: bool,
                         getTopPrograms: (DataSource, int) -> Option<seq<ProgramResult>>): (m: Model)
    ensures dataSource.None? || !caseOpen ==> GetRowCount(m) == 0
    ensures dataSource.Some? && caseOpen ==>
              m == NewModel(getTopPrograms(dataSource.value, TopProgsCount))
  {
    if dataSource.None? || !caseOpen then NewModel(None)
    else
      var list := getTopPrograms(dataSource.value, TopProgsCount);
      if list.None? then NewModel(None) else NewModel(list)
  }

  // ---------------------------------------------------------------------------
  // Lemmas
  // ---------------------------------------------------------------------------

  /** A column has a name exactly when cells of that column exist in a
      non-empty table. */
  lemma ColumnNamesMatchCells(m: Model, row: int, column: int, shortFolderName: string -> string)
    requires 0 <= row < GetRowCount(m)
    ensures GetColumnName(column).Some? <==> GetValueAt(m, row, column, shortFolderName).Some?
  {
  }

  /** The table shows every result of the list it was built from, in order: the
      name and run count of each result can be read back from columns 0 and 2. */
  lemma TableShowsResults(results: seq<ProgramResult>, shortFolderName: string -> string)
    ensures
      var m := NewModel(Some(results));
      forall row :: 0 <= row < |results| ==>
        && GetValueAt(m, row, 0, shortFolderName) == Some(Text(results[row].programName))
        && GetValueAt(m, row, 2, shortFolderName) == Some(Number(results[row].runTimes))
  {
  }
}

=== FILE: wrappers.dfy ===
/** Option and Result, standing for Java's `null` returns and its exceptions. */
module Wrappers {

  /** A value that may be absent; `None` stands for a Java `null`. */
  datatype Option<+T> = None | Some(value: T)

  /** The outcome of an operation that either yields a value or raises an error. */
  datatype Result<+R, +E> = Success(value: R) | Failure(error: E)
}

=== FILE: zero_byte_counter.dfy ===
/**
 The sample content viewer: for the selected node it reads the first 1024
 bytes of the node's content into a 1024-byte buffer and reports how many of
 the bytes read are 0x00.

 The node lookup and `Content.read` are not modelled: a node carries the
 outcome of its content's read (the buffer after the read and the length the
 read returned, or the error it raised), and the content's size. The label is
 kept as structured data rather than as its rendered text.
 */
module ZeroByteCounter {
  import opened Wrappers

  /** The size of the read buffer and the number of bytes asked for. */
  const BufferSize: int := 1024

  /** Content smaller than this is not supported by the viewer. */
  const MinSupportedSize: int := 1024

  /** The outcome of reading the first `BufferSize` bytes of a content object. */
  datatype ReadOutcome =
    | ReadBytes(buffer: seq<bv8>, len: int)  // the whole buffer after the read, and read's return value
    | ReadFailed(message: string)            // read raised TskCoreException

  datatype Content = Content(size: int, firstRead: ReadOutcome)

  /** A selected node; `content` is `None` when the node has no Content object. */
  datatype Node = Node(content: Option<Content>)

  /** What the viewer's label shows. */
  datatype Label =
    | Blank                          // ""
    | ZeroCount(zeros: int, len: int) // "<zeros> out of <len> bytes were 0x00"
    | ReadError(message: string)     // "Error reading file: <message>"

  /** Reference definition: the indices below `len` holding the byte 0x00. */
  ghost function ZeroIndices(buffer: seq<bv8>, len: int): set<int>
    requires len <= |buffer|
  {
    set i | 0 <= i < len && buffer[i] == 0
  }

  /** A read into the 1024-byte buffer never reports more bytes than it was asked for. */
  predicate WellFormedRead(r: ReadOutcome)
  {
    r.ReadBytes? ==> |r.buffer| == BufferSize && r.len <= BufferSize
  }

  /** The counting loop of `setNode`: the number of 0x00 bytes among the first
      `len` bytes of the buffer (none when `len` is not positive). */
  method CountZeroBytes(buffer: array<bv8>, len: int) returns (count: int)
    requires len <= buffer.Length
    ensures count == |ZeroIndices(buffer[..], len)|
    ensures 0 <= count <= (if len > 0 then len else 0)
  {
    count := 0;
    var i := 0;
    while i < len
      invariant 0 <= i <= (if len > 0 then len else 0)
      invariant count == |ZeroIndices(buffer[..], i)|
      invariant count <= i
    {
      ZeroIndicesStep(buffer[..], i);
      if buffer[i] == 0 {
        count := count + 1;
      }
      i := i + 1;
    }
    if len < 0 {
      assert ZeroIndices(buffer[..], len) == {} == ZeroIndices(buffer[..], 0);
    }
  }

  /** `setNode`: no node, or a node without content, blanks the label; a failed
      read shows the error; otherwise the label shows the number of 0x00 bytes
      among the bytes read and the number of bytes read. */
  method SetNode(node: Option<Node>) returns (shown: Label)
    requires node.Some? && node.value.content.Some? ==> WellFormedRead(node.value.content.value.firstRead)
    ensures node.None? ==> shown == Blank
    ensures node.Some? && node.value.content.None? ==> shown == Blank
    ensures node.Some? && node.value.content.Some? ==>
              match node.value.content.value.firstRead
              case ReadFailed(m) => shown == ReadError(m)
              case ReadBytes(b, len) =>
                shown == ZeroCount(|ZeroIndices(b, len)|, len) && 0 <= shown.zeros <= BufferSize
  {
    if node.None? {
      return Blank;
    }
    if node.value.content.None? {
      return Blank;
    }
    match node.value.content.value.firstRead
    case ReadFailed(m) =>
      shown := ReadError(m);
    case ReadBytes(b, len) =>
      var buffer := new bv8[BufferSize](i requires 0 <= i < BufferSize => b[i]);
      assert buffer[..] == b;
      var count := CountZeroBytes(buffer, len);
      shown := ZeroCount(count, len);
  }

  /** `isSupported`: only nodes with content of at least 1024 bytes. */
  function IsSupported(node: Node): (r: bool)
    ensures r <==> node.content.Some? && node.content.value.size >= MinSupportedSize
    ensures r ==> node.content.value.size >= BufferSize
  {
    match node.content
    case None => false
    case Some(c) => c.size >= MinSupportedSize
  }

  /** `isPreferred`: the same low preference for every node. */
  function IsPreferred(node: Node): (r: int)
    ensures r == 1
  {
    1
  }

  /** `resetComponent`: blanks the label. */
  function ResetComponent(): (r: Label)
    ensures r == Blank
  {
    Blank
  }

  // ---------------------------------------------------------------------------
  // Lemmas
  // ---------------------------------------------------------------------------

  /** Extending the examined prefix by one index adds that index exactly when
      its byte is 0x00. */
  lemma ZeroIndicesStep(buffer: seq<bv8>, i: int)
    requires 0 <= i < |buffer|
    ensures ZeroIndices(buffer, i + 1)
              == ZeroIndices(buffer, i) + (if buffer[i] == 0 then {i} else {})
    ensures i !in ZeroIndices(buffer, i)
    ensures |ZeroIndices(buffer, i + 1)| == |ZeroIndices(buffer, i)| + (if buffer[i] == 0 then 1 else 0)
  {
  }

  /** The count depends only on the bytes below `len`: buffers that agree there
      give the same count, whatever lies beyond. */
  lemma OnlyBytesReadAreExamined(b1: seq<bv8>, b2: seq<bv8>, len: int)
    requires 0 <= len <= |b1| && len <= |b2|
    requires b1[..len] == b2[..len]
    ensures ZeroIndices(b1, len) == ZeroIndices(b2, len)
  {
    assert forall i :: 0 <= i < len ==> b1[i] == b1[..len][i] && b2[i] == b2[..len][i];
  }
}
